=== FILE: README.md ===
# Active Directory reconciliation core, modelled in Dafny

This project models the `Devise::AdObject` concern of `devise_active_directory_authenticatable`
(`lib/devise_active_directory_authenticatable/models/ad_object.rb`). That concern keeps
ActiveRecord users and groups in step with Active Directory. It does four things:

- It translates names between local fields and directory attributes through a per-model attribute map.
- It copies mapped directory attributes onto a local record.
- It overwrites a record's relationship fields (members, groups) from the directory entry's
  `member` and `memberof` lists.
- It finds or creates local records for a whole directory search in one batch.

The directory search and the local store are oracles. The directory is a function from a query
to a sequence of attribute bags. Each model class's table is a sequence of rows. Everything else
is pure functions over immutable values.

Modules, leaf first:

- `Common` (common.dfy): `Option`, `Result` and `Error`. `Error` covers the exceptions the code
  raises: `NoMethodError` on `nil`, `TypeError` from indexing a non-object, `NameError` from
  `const_get`, and the missing-`AdObject` configuration error.
- `OrderedHash` (ordered_hash.dfy): Ruby's `Hash` as an insertion-ordered association list with
  distinct keys. Assigning to an existing key replaces its value in place. `Invert` is
  `Hash#invert`, where the last key wins.
- `Values` (values.dfy): Ruby values (`nil`, booleans, strings, arrays, attribute bags), Ruby
  truthiness, and `obj[:attr]`.
- `AttrMapping` (attr_mapping.dfy): `local_field_to_ad`, `ad_field_to_local`,
  `local_attrs_to_ad`, `ad_attrs_to_local`, and the round-trip laws.
- `Search` (search.dfy): `find_in_activedirectory`, `find_all_in_activedirectory`,
  `find_by_activedirectory`, the `where(:objectguid => …)` store query, and the
  `db_objs_by_guid` index.
- `Sync` (sync.dfy): `copy_from_activedirectory`, the `@ad_obj ||= …` resolution, the `ad_obj`
  reader, and `update_from_activedirectory!`. The memoised `@ad_obj` is an explicit field of
  `Instance`.
- `Registration` (registration.dfy): `set_devise_ad_options` and the three `devise_ad_*`
  declarations, checked against a registry of known classes.
- `Membership` (membership.dfy): `update_membership`, `update_children`, `update_parents`,
  `update_memberships`, and `activedirectory_sync!`.
- `Batch` (batch.dfy): `find_or_create_from_activedirectory`. It also models what happens when
  two directory entries share an identifier and a local record carries that identifier: both
  positions hold that one shared Ruby object, and it is updated from the first of those entries.
  When no local record carries the identifier, each entry gets its own `new` record, copied from
  that entry.

Three behaviours of the code differ from what a reader of the method names might expect. The
model follows the code in each:

- **No fallback for a missing attribute map.** One might expect a model without an entry in
  `Devise.ad_attr_mapping` to translate names unchanged. Instead, line 9 yields `nil` for such a
  model, and the first use of that map raises `NoMethodError`: `nil.each` at line 40, `nil.invert`
  at line 192, `nil.has_key?` at line 199. A search with empty parameters never reaches those lines
  (`local_attrs_to_ad({})` calls nothing), so it does not raise. The model takes the map as a
  required parameter.
- **Undeclared roles raise.** One might expect an undeclared relationship role to be skipped. But
  `defined? klass.member_users` (lines 57, 58, 64) is always truthy, because line 80 declares the
  accessors. So an undeclared role reaches `nil[:class]` and raises whenever the entry's list
  attribute is an Array. `Membership.UpdateChildren` and `Membership.UpdateParents` return an
  error in that case.
- **A sync with no entry raises.** One might expect a sync that finds no directory entry to leave
  the record alone. But `activedirectory_sync!` calls `update_memberships` anyway (line 26). That
  re-reads `ad_obj`, which searches again by the record's own identifier. If that search also
  finds nothing, `nil[:member]` raises, whatever the parameters were.
  `Membership.ActiveDirectorySync` states this outcome. `update_from_activedirectory!` does leave
  the record unchanged in that case (`Sync.UpdateFrom`).

## Model

| member | source | states |
|---|---|---|
| `OrderedHash.Get` | lib/devise_active_directory_authenticatable/models/ad_object.rb:193 | `has_key?` holds exactly when the lookup succeeds, and in a hash with distinct keys the lookup returns the value stored under that key |
| `OrderedHash.Put` | lib/devise_active_directory_authenticatable/models/ad_object.rb:206 | hash assignment: the key then reads the new value, every other key reads as before, the entry is appended exactly when the key was new, and re-assigning an existing key keeps every key in its place |
| `OrderedHash.PutAll` | lib/devise_active_directory_authenticatable/models/ad_object.rb:204-207 | a hash built by successive assignment has exactly the keys assigned, and is empty exactly when nothing was assigned |
| `OrderedHash.PutAllLastWins` | lib/devise_active_directory_authenticatable/models/ad_object.rb:213-216 | when several assignments hit one key, the last assignment's value is the one kept |
| `OrderedHash.PutAllDistinct` | lib/devise_active_directory_authenticatable/models/ad_object.rb:213-216 | without colliding keys, successive assignment rebuilds the pairs in their original order |
| `OrderedHash.Invert` | lib/devise_active_directory_authenticatable/models/ad_object.rb:192 | `Hash#invert`: the keys are exactly the original values, each maps back to the last key that held it, and an injective hash inverts entry by entry |
| `Values.Index` | lib/devise_active_directory_authenticatable/models/ad_object.rb:41 | `obj[:attr]` succeeds exactly on attribute bags, where a missing attribute reads as `nil`, and raises on `nil` |
| `AttrMapping.LocalFieldToAd` | lib/devise_active_directory_authenticatable/models/ad_object.rb:197-200 | a mapped field becomes the directory name the map gives it, and an unmapped field passes through unchanged |
| `AttrMapping.AdFieldToLocal` | lib/devise_active_directory_authenticatable/models/ad_object.rb:191-194 | under an injective map a directory name becomes the field mapped to it, and a name the map never produces passes through unchanged |
| `AttrMapping.Translate` | lib/devise_active_directory_authenticatable/models/ad_object.rb:202-218 | renaming a hash's keys yields exactly the renamed keys, carries values unchanged, keeps the later value on a collision, and is empty only for an empty input |
| `AttrMapping.LocalAttrsToAd` | lib/devise_active_directory_authenticatable/models/ad_object.rb:211-218 | every key is renamed to its directory name, or kept when unmapped; values are carried over; on a collision the later entry overwrites the earlier one |
| `AttrMapping.AdAttrsToLocal` | lib/devise_active_directory_authenticatable/models/ad_object.rb:202-209 | the same law through the inverted map |
| `AttrMapping.FieldRoundTrip` | lib/devise_active_directory_authenticatable/models/ad_object.rb:191-200 | with an injective map, a field that is not shadowed by a directory name comes back unchanged from the directory name and back |
| `AttrMapping.AttrRoundTrip` | lib/devise_active_directory_authenticatable/models/ad_object.rb:191-200 | with an injective map, a directory name that is not shadowed by a field name comes back unchanged from the local name and back |
| `AttrMapping.TranslateRoundTrip` | lib/devise_active_directory_authenticatable/models/ad_object.rb:202-218 | if a second renaming undoes the first key by key, translating a hash there and back returns it, in the same order |
| `AttrMapping.LocalAdRoundTrip` | lib/devise_active_directory_authenticatable/models/ad_object.rb:191-218 | `ad_attrs_to_local(local_attrs_to_ad(h)) == h` for an injective map when no unmapped key of `h` is a mapped directory name |
| `AttrMapping.AdLocalRoundTrip` | lib/devise_active_directory_authenticatable/models/ad_object.rb:191-218 | `local_attrs_to_ad(ad_attrs_to_local(h)) == h` for an injective map when no untranslated key of `h` is a mapped field |
| `AttrMapping.EmptyMapIsIdentity` | lib/devise_active_directory_authenticatable/models/ad_object.rb:197-218 | a model configured with an empty map translates in both directions as the identity |
| `Search.PlanSearch` | lib/devise_active_directory_authenticatable/models/ad_object.rb:120-127 | the find-all path is taken exactly when the input parameters are empty; otherwise the search carries the translated parameters |
| `Search.FindIn` | lib/devise_active_directory_authenticatable/models/ad_object.rb:120-127 | an empty search returns what `find_all_in_activedirectory` returns; any other search runs under the directory's attribute names |
| `Search.Where` | lib/devise_active_directory_authenticatable/models/ad_object.rb:133 | the store query returns exactly the stored rows whose identifier is in the list, and nothing else |
| `Search.GuidsOf` | lib/devise_active_directory_authenticatable/models/ad_object.rb:132 | collecting identifiers succeeds exactly when every entry is an attribute bag, and gives each entry's identifier in order |
| `Search.FindByDirectory` | lib/devise_active_directory_authenticatable/models/ad_object.rb:129-134 | a single object is treated as a list of one; the result is exactly the local rows whose identifier some listed entry carries; a non-object entry raises |
| `Search.GuidIndex` | lib/devise_active_directory_authenticatable/models/ad_object.rb:146-151 | the index's keys are exactly the rows' identifiers, and each key maps to a row carrying that identifier |
| `Search.GuidIndexLastWins` | lib/devise_active_directory_authenticatable/models/ad_object.rb:149-151 | of several rows with one identifier, the index keeps the last |
| `Sync.Copy` | lib/devise_active_directory_authenticatable/models/ad_object.rb:39-43 | after copying, each mapped field holds the entry's value of its directory attribute (`nil` if missing); no other field changes and no field disappears |
| `Sync.CopyIdempotent` | lib/devise_active_directory_authenticatable/models/ad_object.rb:39-43 | copying the same entry twice gives the same record as copying it once |
| `Sync.SingleParamSearch` | lib/devise_active_directory_authenticatable/models/ad_object.rb:17 | a one-field search goes to the directory under that field's directory name with the same value |
| `Sync.ResolveObject` | lib/devise_active_directory_authenticatable/models/ad_object.rb:31-33 | a memoised entry wins over `:object` and over the search; next a truthy `:object`; otherwise the first hit of the search, which for empty parameters is a search by the record's identifier |
| `Sync.CopyFrom` | lib/devise_active_directory_authenticatable/models/ad_object.rb:34-41 | a `nil` entry leaves the record unchanged; an attribute bag is copied; any other value raises exactly when the map is non-empty and otherwise leaves the record exactly as it was |
| `Sync.UpdateFrom` | lib/devise_active_directory_authenticatable/models/ad_object.rb:31-36 | whatever resolves the entry (memo, `:object` or the search), an attribute-bag entry is memoised and every mapped field is copied from it; when nothing resolves the record is unchanged; any other entry raises exactly when the map is non-empty and otherwise leaves the fields exactly as they were; fields that are not keys of the attribute map are never touched |
| `Sync.CurrentObject` | lib/devise_active_directory_authenticatable/models/ad_object.rb:16-18 | the `ad_obj` reader returns the memoised entry, or else the first entry found by the record's identifier |
| `Registration.SetDeviseAdOptions` | lib/devise_active_directory_authenticatable/models/ad_object.rb:86-97 | registration succeeds exactly when the target class exists and includes `AdObject`; the field is kept and the class name defaults to the field; a missing class and a class without `AdObject` raise |
| `Registration.Declare` | lib/devise_active_directory_authenticatable/models/ad_object.rb:99-109 | a declaration sets one role and leaves the other two; a failing declaration changes nothing; every declared role stays resolvable |
| `Registration.FirstDeclaration` | lib/devise_active_directory_authenticatable/models/ad_object.rb:80-109 | starting from a class with no role declared, a successful declaration leaves exactly that role declared and resolvable, writing only the declared field |
| `Membership.UpdateMembership` | lib/devise_active_directory_authenticatable/models/ad_object.rb:69-76 | an undeclared role raises; an empty list sets the field to `[]`; otherwise the field holds exactly the target class's rows for the listed identifiers, unknown identifiers dropped; no other field changes |
| `Membership.UpdateChildren` | lib/devise_active_directory_authenticatable/models/ad_object.rb:54-60 | a `member` that is not an Array leaves the record untouched; `[]` clears both roles' fields; a non-empty Array sets them to exactly the matching rows; an undeclared role raises; only the member-users and member-groups fields can change |
| `Membership.UpdateParents` | lib/devise_active_directory_authenticatable/models/ad_object.rb:62-67 | the same three-way law for `memberof` and the member-of role; only the member-of field can change |
| `Membership.UpdateMemberships` | lib/devise_active_directory_authenticatable/models/ad_object.rb:49-52 | succeeds exactly when both passes do; then the member-of field holds exactly the records the `memberof` Array names, the member-users and member-groups fields hold exactly the records the `member` Array names (unless the member-of field, written later, is the same field); a role whose list attribute is not an Array keeps its field, and no other field changes |
| `Membership.ActiveDirectorySync` | lib/devise_active_directory_authenticatable/models/ad_object.rb:22-27 | after `update_from_activedirectory!`, the entry the `ad_obj` reader then returns is memoised and, when it is an attribute bag, the sync succeeds exactly when the membership update does, leaving mapped fields copied from the resolved entry and the relationship fields of the lists it carries holding those lists, every other field as before; it raises when the reader returns `nil`, in particular when neither lookup finds an entry, for any parameters |
| `Batch.EntryGuidsAgree` | lib/devise_active_directory_authenticatable/models/ad_object.rb:132-145 | the identifiers `find_or_create_from_activedirectory` collects with `collect(&:objectguid)` (line 145) are exactly those `find_by_activedirectory` collects with `obj[:objectguid]` (line 132), in the same order, and that collection never raises on directory entries |
| `Batch.FirstIndex` | lib/devise_active_directory_authenticatable/models/ad_object.rb:154-156 | a specification helper: the earliest entry carrying an identifier, which is the entry a shared local record memoises when several entries carry its identifier |
| `Batch.FirstVisit` | lib/devise_active_directory_authenticatable/models/ad_object.rb:154-156 | updating an unmemoised record with `:object => entry` memoises that entry and copies from it |
| `Batch.RepeatVisit` | lib/devise_active_directory_authenticatable/models/ad_object.rb:154-156 | updating a record that already memoised an entry leaves it as it is, whatever `:object` says |
| `Batch.VisitAll` | lib/devise_active_directory_authenticatable/models/ad_object.rb:153-159 | after the loop, each indexed identifier's shared record is as its first entry left it, and each entry without a local record holds its own new record |
| `Batch.Collect` | lib/devise_active_directory_authenticatable/models/ad_object.rb:158-165 | the returned list reads every slot after the loop, one record per entry |
| `Batch.FindOrCreate` | lib/devise_active_directory_authenticatable/models/ad_object.rb:140-166 | one record per directory entry, in directory order: the local record indexed under the entry's identifier, or a `new` record, updated from the entry; when several entries share an identifier that has a local record, every one of those positions holds that record as updated from the first of them |
| `Batch.ReconciledDistinct` | lib/devise_active_directory_authenticatable/models/ad_object.rb:153-159 | with distinct directory identifiers, the `i`-th record is the indexed record, or a fresh one, updated from the `i`-th entry itself |
| `Batch.ReconciledCarriesGuid` | lib/devise_active_directory_authenticatable/models/ad_object.rb:153-159 | when the map copies `objectguid`, every returned record carries its entry's identifier |

## Left out

- The connection and credentials code (lines 172-186): `activedirectory_connect`, `set_activedirectory_credentials`, `connected_to_activedirectory?` and the cache toggle. These are network and global configuration effects; the directory is an oracle here.
- `login_with` (lines 82-84): a configuration read with no logic.
- `devise_model_name` and `activedirectory_class_name` (lines 111-117): they derive names by reflection. The model's attribute map and directory are passed in directly instead.
- The attribute-map lookup `::Devise.ad_attr_mapping[...]` (lines 9, 192, 198): the map is a required parameter. For a model without an entry, the code raises `NoMethodError` where the `nil` map is first used (lines 40, 192, 199); that error is not modelled.
- The memoisation of `@attr_map`, `@ad_to_local_map` and `@local_to_ad_map`: these maps are recomputed from the parameter, which gives the same values.
- `Kernel.const_get` and Rails `classify` (lines 89-90): a registry from class name to `ModelClass` replaces constant lookup, and `classify` is a function parameter.
- `Logger`, and the commented-out transaction (lines 161-163).
- Persistence: no record is saved. Assigning a has-many association is modelled as storing a list of the target rows' attribute bags in the field.
- Errors from ActiveRecord itself: assigning an attribute the table lacks, or calling a `field=` writer the model lacks. Every record is an open attribute bag.
- State after an exception: a record partly mutated before an error raises is not returned, because the error result carries no record.
- The mutation of the caller's parameter hash by `params[:objectguid] = …` (lines 23, 32). Only the local copy is modelled.
- Symbol and string keys are both modelled as strings. A `nil` identifier matches rows whose identifier is `nil`, which is what ActiveRecord's `IS NULL` does for a `nil` in the list.
- Search.Where: returns rows in store order, but no contract promises an order, because SQL returns `where` results in no defined order.
- Batch.FindOrCreate: when several local rows share an identifier, the contract picks the last of them in store order, because `Search.Where` is a filter in store order; SQL leaves the order of `where` results (line 149) undefined, so the code may pick any of them.
- Batch.FindOrCreate: does not state that exactly one directory search and one store lookup are issued. Calls are not observable in a pure model; the method body makes each once.

=== FILE: attr_mapping.dfy ===
/**
 * Translation between local field names and directory attribute names
 * through a model's attribute map (`ad_field_to_local`, `local_field_to_ad`,
 * `ad_attrs_to_local`, `local_attrs_to_ad`). A name the map does not mention
 * passes through unchanged.
 */
module AttrMapping {
  import opened Common
  import opened OrderedHash

  /** A model's attribute map: local field name to directory attribute name. */
  type AttrMap = Hash<string>

  /** Looks a name up in a translation table, keeping it when it is absent. */
  function Rename(table: Hash<string>, name: string): (r: string)
    ensures HasKey(table, name) ==> Get(table, name) == Some(r)
    ensures !HasKey(table, name) ==> r == name
  {
    match Get(table, name)
    case Some(mapped) => mapped
    case None => name
  }

  /** `local_field_to_ad`: the directory name of a local field. */
  function LocalFieldToAd(m: AttrMap, field: string): (r: string)
    ensures forall i :: 0 <= i < |m| && m[i].0 == field ==> r == m[i].1
    ensures !HasKey(m, field) ==> r == field
  {
    Rename(m, field)
  }

  /** `ad_field_to_local`: the local name of a directory attribute, through the
      inverted map. When two fields share a directory name the last one wins. */
  function AdFieldToLocal(m: AttrMap, attr: string): (r: string)
    ensures UniqueValues(m) ==> forall i :: 0 <= i < |m| && m[i].1 == attr ==> r == m[i].0
    ensures !HasValue(m, attr) ==> r == attr
  {
    Rename(Invert(m), attr)
  }

  /** The attribute pairs with every key renamed through `table`, in order. */
  function Renamed<V>(table: Hash<string>, attrs: seq<(string, V)>): (ps: seq<(string, V)>)
    ensures |ps| == |attrs|
    ensures forall i :: 0 <= i < |attrs| ==> ps[i] == (Rename(table, attrs[i].0), attrs[i].1)
  {
    seq(|attrs|, i requires 0 <= i < |attrs| => (Rename(table, attrs[i].0), attrs[i].1))
  }

  /** Renames every key of an attribute hash through a table, in insertion
      order; when two keys land on the same name the later value overwrites
      the earlier one. */
  function Translate<V>(table: Hash<string>, attrs: Hash<V>): (r: Hash<V>)
    ensures |r| == 0 <==> |attrs| == 0
    ensures forall k :: HasKey(r, k) <==>
              exists i :: 0 <= i < |attrs| && Rename(table, attrs[i].0) == k
    ensures forall i :: 0 <= i < |attrs| && IsLast(Renamed(table, attrs), i) ==>
              Get(r, Rename(table, attrs[i].0)) == Some(attrs[i].1)
  {
    var ps := Renamed(table, attrs);
    assert forall k :: HasKey(ps, k) <==>
             exists i :: 0 <= i < |attrs| && Rename(table, attrs[i].0) == k by {
      forall k ensures HasKey(ps, k) <==>
                       exists i :: 0 <= i < |attrs| && Rename(table, attrs[i].0) == k
      {
        if HasKey(ps, k) {
          var i :| 0 <= i < |ps| && ps[i].0 == k;
          assert Rename(table, attrs[i].0) == k;
        }
        if exists i :: 0 <= i < |attrs| && Rename(table, attrs[i].0) == k {
          var i :| 0 <= i < |attrs| && Rename(table, attrs[i].0) == k;
          assert ps[i].0 == k;
        }
      }
    }
    assert forall i :: 0 <= i < |attrs| && IsLast(ps, i) ==>
             Get(PutAll(ps), Rename(table, attrs[i].0)) == Some(attrs[i].1) by {
      forall i | 0 <= i < |attrs| && IsLast(ps, i)
        ensures Get(PutAll(ps), Rename(table, attrs[i].0)) == Some(attrs[i].1)
      {
        PutAllLastWins(ps, i);
      }
    }
    PutAll(ps)
  }

  /** `local_attrs_to_ad`: each key becomes its directory name, values are kept,
      and of two keys with the same directory name the later value wins. */
  function LocalAttrsToAd<V>(m: AttrMap, attrs: Hash<V>): (r: Hash<V>)
    ensures |r| == 0 <==> |attrs| == 0
    ensures forall k :: HasKey(r, k) <==>
              exists i :: 0 <= i < |attrs| && LocalFieldToAd(m, attrs[i].0) == k
    ensures forall i :: 0 <= i < |attrs| && IsLast(Renamed(m, attrs), i) ==>
              Get(r, LocalFieldToAd(m, attrs[i].0)) == Some(attrs[i].1)
  {
    Translate(m, attrs)
  }

  /** `ad_attrs_to_local`: each key becomes its local name through the
      inverted map, with the same pass-through and overwrite rules. */
  function AdAttrsToLocal<V>(m: AttrMap, attrs: Hash<V>): (r: Hash<V>)
    ensures |r| == 0 <==> |attrs| == 0
    ensures forall k :: HasKey(r, k) <==>
              exists i :: 0 <= i < |attrs| && AdFieldToLocal(m, attrs[i].0) == k
    ensures forall i :: 0 <= i < |attrs| && IsLast(Renamed(Invert(m), attrs), i) ==>
              Get(r, AdFieldToLocal(m, attrs[i].0)) == Some(attrs[i].1)
  {
    Translate(Invert(m), attrs)
  }

  /** A local field survives the trip to the directory name and back, provided
      the map is injective and an unmapped field is not some field's
      directory name. */
  lemma FieldRoundTrip(m: AttrMap, field: string)
    requires UniqueValues(m)
    requires !HasKey(m, field) ==> !HasValue(m, field)
    ensures AdFieldToLocal(m, LocalFieldToAd(m, field)) == field
  {
    if HasKey(m, field) {
      var i := IndexOf(m, field);
      assert LocalFieldToAd(m, field) == m[i].1;
    }
  }

  /** The symmetric law for directory names. */
  lemma AttrRoundTrip(m: AttrMap, attr: string)
    requires UniqueValues(m)
    requires !HasValue(m, attr) ==> !HasKey(m, attr)
    ensures LocalFieldToAd(m, AdFieldToLocal(m, attr)) == attr
  {
    if HasValue(m, attr) {
      var i :| 0 <= i < |m| && m[i].1 == attr;
      assert AdFieldToLocal(m, attr) == m[i].0;
    }
  }

  /** Translating a whole hash through a renaming that a second renaming
      undoes key by key gives back the hash, in the same order. */
  lemma TranslateRoundTrip<V>(there: Hash<string>, back: Hash<string>, attrs: Hash<V>)
    requires forall i :: 0 <= i < |attrs| ==> Rename(back, Rename(there, attrs[i].0)) == attrs[i].0
    ensures Translate(back, Translate(there, attrs)) == attrs
  {
    var out := Renamed(there, attrs);
    assert UniqueKeys(out) by {
      forall i, j | 0 <= i < j < |out| ensures out[i].0 != out[j].0 {
        assert Rename(back, out[i].0) == attrs[i].0;
        assert Rename(back, out[j].0) == attrs[j].0;
      }
    }
    PutAllDistinct(out);
    assert Translate(there, attrs) == out;
    var home := Renamed(back, out);
    assert home == attrs;
    PutAllDistinct(attrs);
  }

  /** `ad_attrs_to_local(local_attrs_to_ad(h)) == h` for an injective map when
      no unmapped key of `h` is itself a mapped directory name. */
  lemma LocalAdRoundTrip<V>(m: AttrMap, attrs: Hash<V>)
    requires UniqueValues(m)
    requires forall i :: 0 <= i < |attrs| && !HasKey(m, attrs[i].0) ==> !HasValue(m, attrs[i].0)
    ensures AdAttrsToLocal(m, LocalAttrsToAd(m, attrs)) == attrs
  {
    forall i | 0 <= i < |attrs|
      ensures Rename(Invert(m), Rename(m, attrs[i].0)) == attrs[i].0
    {
      FieldRoundTrip(m, attrs[i].0);
    }
    TranslateRoundTrip(m, Invert(m), attrs);
  }

  /** `local_attrs_to_ad(ad_attrs_to_local(h)) == h` for an injective map when
      no untranslated key of `h` is itself a mapped local field. */
  lemma AdLocalRoundTrip<V>(m: AttrMap, attrs: Hash<V>)
    requires UniqueValues(m)
    requires forall i :: 0 <= i < |attrs| && !HasValue(m, attrs[i].0) ==> !HasKey(m, attrs[i].0)
    ensures LocalAttrsToAd(m, AdAttrsToLocal(m, attrs)) == attrs
  {
    forall i | 0 <= i < |attrs|
      ensures Rename(m, Rename(Invert(m), attrs[i].0)) == attrs[i].0
    {
      AttrRoundTrip(m, attrs[i].0);
    }
    TranslateRoundTrip(Invert(m), m, attrs);
  }

  /** A model whose map is empty searches and reads under the local names. */
  lemma EmptyMapIsIdentity<V>(attrs: Hash<V>)
    ensures LocalAttrsToAd([], attrs) == attrs
    ensures AdAttrsToLocal([], attrs) == attrs
  {
    assert Renamed([], attrs) == attrs;
    PutAllDistinct(attrs);
    assert Invert([]) == [];
  }
}

=== FILE: batch.dfy ===
/**
 * `find_or_create_from_activedirectory`: one directory search, one batched
 * local lookup by identifier, then one record per directory entry, in
 * directory order, each updated from its entry.
 */
module Batch {
  import opened Common
  import opened OrderedHash
  import opened Values
  import opened AttrMapping
  import opened Search
  import opened Sync

  /** `ad_objs.collect(&:objectguid)`. */
  function EntryGuids(objs: seq<Bag>): (gs: seq<Value>)
    ensures |gs| == |objs|
    ensures forall i :: 0 <= i < |objs| ==> gs[i] == Lookup(objs[i], GuidKey)
  {
    seq(|objs|, i requires 0 <= i < |objs| => Lookup(objs[i], GuidKey))
  }

  /** Line 145's `collect(&:objectguid)` agrees with line 132's
      `collect { |obj| obj[:objectguid] }` on the same entries. */
  lemma EntryGuidsAgree(objs: seq<Bag>)
    ensures GuidsOf(seq(|objs|, i requires 0 <= i < |objs| => Node(objs[i]))) == Ok(EntryGuids(objs))
  {
    var nodes := seq(|objs|, i requires 0 <= i < |objs| => Node(objs[i]));
    var r := GuidsOf(nodes);
    assert forall i :: 0 <= i < |nodes| ==> nodes[i].Node?;
    assert r.value == EntryGuids(objs);
  }

  /** The position of the first occurrence of `g`. */
  function FirstIndex(gs: seq<Value>, g: Value): (i: nat)
    requires g in gs
    ensures i < |gs| && gs[i] == g
    ensures forall j :: 0 <= j < |gs| && gs[j] == g ==> i <= j
  {
    if gs[0] == g then 0 else 1 + FirstIndex(gs[1..], g)
  }

  /** What the `i`-th returned record holds once the batch is done. A local
      record found by identifier is one Ruby object shared by every entry
      with that identifier: the first such entry is memoised into it and
      copied, and later visits copy the memoised entry again. An entry
      without a local record gets a `new` record of its own. */
  function Reconciled(objs: seq<Bag>, index: map<Value, Bag>, m: AttrMap, i: int): Bag
    requires 0 <= i < |objs|
  {
    var gs := EntryGuids(objs);
    if gs[i] in index then Copy(index[gs[i]], m, objs[FirstIndex(gs, gs[i])])
    else Copy(Fresh.fields, m, objs[i])
  }

  /** A slot of the result: a shared local record, or a record of its own. */
  datatype Slot = Shared(guid: Value) | Own(rec: Bag)

  /** The parameters `find_or_create_from_activedirectory` passes on. */
  function ObjectParams(obj: Bag): (p: Hash<Value>)
    ensures ObjectParam(p) == Node(obj)
  {
    [("object", Node(obj))]
  }

  /** The first visit of a record memoises the entry and copies from it. */
  lemma FirstVisit(rec: Bag, obj: Bag, m: AttrMap, dir: Directory)
    ensures UpdateFrom(Instance(rec, Nil), ObjectParams(obj), m, dir) == Ok(Instance(Copy(rec, m, obj), Node(obj)))
  {
  }

  /** A later visit copies the memoised entry again, which changes nothing. */
  lemma RepeatVisit(rec: Bag, first: Bag, obj: Bag, m: AttrMap, dir: Directory)
    ensures UpdateFrom(Instance(Copy(rec, m, first), Node(first)), ObjectParams(obj), m, dir)
            == Ok(Instance(Copy(rec, m, first), Node(first)))
  {
    CopyIdempotent(rec, m, first);
  }

  /** The instance the loop works on for entry `i`: the shared record when
      its identifier is indexed (already visited or not), else a `new` one. */
  function Target(index: map<Value, Bag>, live: map<Value, Instance>, g: Value): Instance {
    if g in live then live[g] else if g in index then Instance(index[g], Nil) else Fresh
  }

  /** The instance entry `i` leaves behind. */
  function Visited(objs: seq<Bag>, index: map<Value, Bag>, m: AttrMap, i: int): Instance
    requires 0 <= i < |objs|
  {
    var guids := EntryGuids(objs);
    var g := guids[i];
    if g in index then
      Instance(Copy(index[g], m, objs[FirstIndex(guids, g)]), Node(objs[FirstIndex(guids, g)]))
    else Instance(Copy(Fresh.fields, m, objs[i]), Node(objs[i]))
  }

  /** The slot entry `k` fills. */
  function Expected(objs: seq<Bag>, index: map<Value, Bag>, m: AttrMap, k: int): Slot
    requires 0 <= k < |objs|
  {
    var g := Lookup(objs[k], GuidKey);
    if g in index then Shared(g) else Own(Visited(objs, index, m, k).fields)
  }

  /** After `i` entries the shared records in hand are exactly the indexed
      identifiers met so far. */
  ghost predicate LiveDomain(objs: seq<Bag>, index: map<Value, Bag>, live: map<Value, Instance>, i: int) {
    var guids := EntryGuids(objs);
    && (forall g :: g in live ==> g in index && g in guids && FirstIndex(guids, g) < i)
    && (forall k :: 0 <= k < i && k < |objs| && Lookup(objs[k], GuidKey) in index ==>
          Lookup(objs[k], GuidKey) in live)
  }

  /** Each shared record is as its first entry left it. */
  ghost predicate LiveValues(objs: seq<Bag>, index: map<Value, Bag>, m: AttrMap, live: map<Value, Instance>) {
    var guids := EntryGuids(objs);
    forall g :: g in live ==> g in guids && live[g] == Visited(objs, index, m, FirstIndex(guids, g))
  }

  /** The first `i` slots are filled. */
  ghost predicate SlotsFilled(objs: seq<Bag>, index: map<Value, Bag>, m: AttrMap, slots: seq<Slot>, i: int)
    requires 0 <= i <= |objs|
  {
    |slots| == i && forall k :: 0 <= k < i ==> slots[k] == Expected(objs, index, m, k)
  }

  ghost predicate SlotsInvariant(objs: seq<Bag>, index: map<Value, Bag>, m: AttrMap,
                                 live: map<Value, Instance>, slots: seq<Slot>, i: int)
    requires 0 <= i <= |objs|
  {
    LiveDomain(objs, index, live, i) && LiveValues(objs, index, m, live) && SlotsFilled(objs, index, m, slots, i)
  }

  /** An indexed identifier not yet in hand is met for the first time. */
  lemma FirstMeeting(objs: seq<Bag>, index: map<Value, Bag>, live: map<Value, Instance>, i: int)
    requires 0 <= i < |objs| && LiveDomain(objs, index, live, i)
    requires Lookup(objs[i], GuidKey) in index && Lookup(objs[i], GuidKey) !in live
    ensures FirstIndex(EntryGuids(objs), Lookup(objs[i], GuidKey)) == i
  {
    var guids := EntryGuids(objs);
    var g := Lookup(objs[i], GuidKey);
    assert guids[i] == g;
    var first := FirstIndex(guids, g);
    assert first <= i;
  }

  /** Entry `i` leaves its shared record as the first entry with its
      identifier did. */
  lemma VisitedIsFirst(objs: seq<Bag>, index: map<Value, Bag>, m: AttrMap, i: int)
    requires 0 <= i < |objs| && Lookup(objs[i], GuidKey) in index
    ensures var guids := EntryGuids(objs);
            Visited(objs, index, m, i) == Visited(objs, index, m, FirstIndex(guids, Lookup(objs[i], GuidKey)))
  {
    var guids := EntryGuids(objs);
    var first := FirstIndex(guids, guids[i]);
    assert guids[first] == guids[i];
  }

  lemma VisitUpdates(objs: seq<Bag>, index: map<Value, Bag>, m: AttrMap, dir: Directory,
                     live: map<Value, Instance>, i: int)
    requires 0 <= i < |objs| && LiveDomain(objs, index, live, i) && LiveValues(objs, index, m, live)
    ensures UpdateFrom(Target(index, live, Lookup(objs[i], GuidKey)), ObjectParams(objs[i]), m, dir)
            == Ok(Visited(objs, index, m, i))
  {
    var guids := EntryGuids(objs);
    var g := Lookup(objs[i], GuidKey);
    if g in live {
      VisitedIsFirst(objs, index, m, i);
      RepeatVisit(index[g], objs[FirstIndex(guids, g)], objs[i], m, dir);
    } else {
      FirstVisit(Target(index, live, g).fields, objs[i], m, dir);
      if g in index {
        FirstMeeting(objs, index, live, i);
      }
    }
  }

  lemma VisitPreservesShared(objs: seq<Bag>, index: map<Value, Bag>, m: AttrMap,
                             live: map<Value, Instance>, slots: seq<Slot>, i: int)
    requires 0 <= i < |objs| && SlotsInvariant(objs, index, m, live, slots, i)
    requires Lookup(objs[i], GuidKey) in index
    ensures SlotsInvariant(objs, index, m, live[Lookup(objs[i], GuidKey) := Visited(objs, index, m, i)],
                           slots + [Shared(Lookup(objs[i], GuidKey))], i + 1)
  {
    var guids := EntryGuids(objs);
    var g := Lookup(objs[i], GuidKey);
    var live' := live[g := Visited(objs, index, m, i)];
    assert guids[i] == g;
    if g !in live {
      FirstMeeting(objs, index, live, i);
    }
    VisitedIsFirst(objs, index, m, i);
    assert LiveDomain(objs, index, live', i + 1);
    assert LiveValues(objs, index, m, live');
    assert SlotsFilled(objs, index, m, slots + [Shared(g)], i + 1);
  }

  lemma VisitPreservesOwn(objs: seq<Bag>, index: map<Value, Bag>, m: AttrMap,
                          live: map<Value, Instance>, slots: seq<Slot>, i: int)
    requires 0 <= i < |objs| && SlotsInvariant(objs, index, m, live, slots, i)
    requires Lookup(objs[i], GuidKey) !in index
    ensures SlotsInvariant(objs, index, m, live, slots + [Own(Visited(objs, index, m, i).fields)], i + 1)
  {
    assert LiveDomain(objs, index, live, i + 1);
    assert SlotsFilled(objs, index, m, slots + [Own(Visited(objs, index, m, i).fields)], i + 1);
  }

  /** The loop of `ad_objs.each`: fetches the shared record or a `new` one and
      runs `update_from_activedirectory!(:object => ad_obj)` on it. */
  method VisitAll(objs: seq<Bag>, index: map<Value, Bag>, m: AttrMap, dir: Directory)
    returns (live: map<Value, Instance>, slots: seq<Slot>)
    ensures SlotsInvariant(objs, index, m, live, slots, |objs|)
  {
    var guids := EntryGuids(objs);
    live := map[];
    slots := [];
    for i := 0 to |objs|
      invariant SlotsInvariant(objs, index, m, live, slots, i)
    {
      var g := guids[i];
      var updated := UpdateFrom(Target(index, live, g), ObjectParams(objs[i]), m, dir);
      VisitUpdates(objs, index, m, dir, live, i);
      if g in index {
        VisitPreservesShared(objs, index, m, live, slots, i);
        live := live[g := updated.value];
        slots := slots + [Shared(g)];
      } else {
        VisitPreservesOwn(objs, index, m, live, slots, i);
        slots := slots + [Own(updated.value.fields)];
      }
    }
  }

  /** The record a slot reads. */
  function SlotValue(slot: Slot, live: map<Value, Instance>): Bag
    requires slot.Shared? ==> slot.guid in live
  {
    match slot
    case Shared(g) => live[g].fields
    case Own(rec) => rec
  }

  /** Every slot reads the record `Reconciled` describes. */
  ghost predicate SlotsResolve(objs: seq<Bag>, index: map<Value, Bag>, m: AttrMap,
                               live: map<Value, Instance>, slots: seq<Slot>)
  {
    && |slots| == |objs|
    && forall k :: 0 <= k < |slots| ==>
         (slots[k].Shared? ==> slots[k].guid in live) &&
         SlotValue(slots[k], live) == Reconciled(objs, index, m, k)
  }

  lemma InvariantResolves(objs: seq<Bag>, index: map<Value, Bag>, m: AttrMap,
                          live: map<Value, Instance>, slots: seq<Slot>)
    requires SlotsInvariant(objs, index, m, live, slots, |objs|)
    ensures SlotsResolve(objs, index, m, live, slots)
  {
    forall k | 0 <= k < |slots|
      ensures (slots[k].Shared? ==> slots[k].guid in live) &&
              SlotValue(slots[k], live) == Reconciled(objs, index, m, k)
    {
      assert slots[k] == Expected(objs, index, m, k);
      if Lookup(objs[k], GuidKey) in index {
        VisitedIsFirst(objs, index, m, k);
      }
    }
  }

  /** `local_objs`: every slot read after the loop, so a shared record shows
      its final state at each of its positions. */
  method Collect(objs: seq<Bag>, index: map<Value, Bag>, m: AttrMap,
                 live: map<Value, Instance>, slots: seq<Slot>)
    returns (records: seq<Bag>)
    requires SlotsResolve(objs, index, m, live, slots)
    ensures |records| == |objs|
    ensures forall i :: 0 <= i < |objs| ==> records[i] == Reconciled(objs, index, m, i)
  {
    records := [];
    for i := 0 to |slots|
      invariant |records| == i
      invariant forall k :: 0 <= k < i ==> records[k] == SlotValue(slots[k], live)
    {
      records := records + [SlotValue(slots[i], live)];
    }
  }

  /** `find_or_create_from_activedirectory`: one record per directory entry,
      in directory order; the `i`-th is the local record indexed under the
      entry's identifier, or a `new` one, updated from the entry. */
  method FindOrCreate(m: AttrMap, dir: Directory, store: seq<Bag>, params: Hash<Value>)
    returns (records: seq<Bag>)
    ensures var objs := FindIn(m, dir, params);
            var index := GuidIndex(Where(store, EntryGuids(objs)));
            && |records| == |objs|
            && forall i :: 0 <= i < |objs| ==> records[i] == Reconciled(objs, index, m, i)
  {
    var objs := FindIn(m, dir, params);
    var index := GuidIndex(Where(store, EntryGuids(objs)));
    var live, slots := VisitAll(objs, index, m, dir);
    InvariantResolves(objs, index, m, live, slots);
    records := Collect(objs, index, m, live, slots);
  }

  /** With pairwise distinct identifiers in the directory result, the
      `i`-th record is the indexed local record, or a `new` one, updated from
      the `i`-th entry itself. */
  lemma ReconciledDistinct(objs: seq<Bag>, index: map<Value, Bag>, m: AttrMap, i: int)
    requires 0 <= i < |objs|
    requires forall j, k :: 0 <= j < k < |objs| ==> Lookup(objs[j], GuidKey) != Lookup(objs[k], GuidKey)
    ensures var g := Lookup(objs[i], GuidKey);
            Reconciled(objs, index, m, i) == Copy(if g in index then index[g] else Fresh.fields, m, objs[i])
  {
    var guids := EntryGuids(objs);
    var first := FirstIndex(guids, guids[i]);
    assert first == i;
  }

  /** When the map fills the identifier field from the identifier attribute,
      every returned record carries the identifier of its directory entry. */
  lemma ReconciledCarriesGuid(objs: seq<Bag>, index: map<Value, Bag>, m: AttrMap, i: int)
    requires 0 <= i < |objs|
    requires HasKey(m, GuidKey) && LocalFieldToAd(m, GuidKey) == GuidKey
    ensures Lookup(Reconciled(objs, index, m, i), GuidKey) == Lookup(objs[i], GuidKey)
  {
    var guids := EntryGuids(objs);
    var j := IndexOf(m, GuidKey);
    assert m[j].1 == GuidKey;
    var g := guids[i];
    if g in index {
      var first := FirstIndex(guids, g);
      assert Lookup(objs[first], GuidKey) == g;
    }
  }
}

=== FILE: common.dfy ===
/** Failure-compatible wrappers shared by every module of the model. */
module Common {

  /** Ruby's `nil`-or-value, used for optional configuration and hash lookups. */
  datatype Option<+T> = None | Some(value: T)

  /** The exceptions the modelled Ruby code can raise. */
  datatype Error =
    /** A method was called on `nil` (Ruby `NoMethodError`); `selector` names it. */
    | NilReceiver(selector: string)
    /** `[]` was applied with a symbol to a value that is not an attribute bag
        (Ruby `TypeError` or `NoMethodError`, depending on the receiver). */
    | NotIndexable(selector: string)
    /** `Kernel.const_get` found no class of that name (Ruby `NameError`). */
    | UnknownClass(className: string)
    /** The target class of a relationship does not include `Devise::AdObject`. */
    | NotAdObject(className: string)

  /** Either a value or the exception raised while computing it. */
  datatype Result<+T> = Ok(value: T) | Err(error: Error) {

    predicate IsFailure() {
      Err?
    }

    function PropagateFailure<U>(): Result<U>
      requires Err?
    {
      Err(error)
    }

    function Extract(): T
      requires Ok?
    {
      value
    }
  }
}

=== FILE: membership.dfy ===
/**
 * Overwriting a record's relationship fields from its directory entry
 * (`update_memberships`, `update_children`, `update_parents`,
 * `update_membership`) and the full `activedirectory_sync!`.
 */
module Membership {
  import opened Common
  import opened OrderedHash
  import opened Values
  import opened AttrMapping
  import opened Search
  import opened Sync
  import opened Registration

  /** The directory attributes listing an entry's members and its groups. */
  const MemberKey: string := "member"
  const MemberOfKey: string := "memberof"

  /** `v` is a list holding exactly the records of `store` whose identifier
      one of `objs` carries, each as a node; identifiers no local record has
      contribute nothing. */
  ghost predicate HoldsExactly(v: Value, store: seq<Bag>, objs: seq<Value>) {
    && v.List?
    && forall x :: x in v.items <==>
         x.Node? && x.attrs in store && Mentions(objs, Lookup(x.attrs, GuidKey))
  }

  /** `out` agrees with `rec` on every field outside `written`. */
  ghost predicate Untouched(rec: Bag, out: Bag, written: set<string>) {
    forall k :: k !in written ==> (k in out <==> k in rec) && (k in rec ==> out[k] == rec[k])
  }

  /** `update_membership`: an undeclared role raises on `nil[:class]`; an
      empty list sets the field to `[]` without a query; otherwise the field
      becomes the target class's records for the listed identifiers. */
  function UpdateMembership(rec: Bag, objs: seq<Value>, rel: Option<Relation>, classes: Classes): (r: Result<Bag>)
    requires Resolvable(rel, classes)
    ensures rel.None? ==> r == Err(NilReceiver("[]"))
    ensures rel.Some? && |objs| == 0 ==> r == Ok(rec[rel.value.field := List([])])
    ensures rel.Some? ==> (r.Ok? <==> forall i :: 0 <= i < |objs| ==> objs[i].Node?)
    ensures r.Ok? ==> rel.value.field in r.value && Untouched(rec, r.value, {rel.value.field})
    ensures r.Ok? ==> HoldsExactly(r.value[rel.value.field], classes[rel.value.className].store, objs)
  {
    if rel.None? then Err(NilReceiver("[]"))
    else
      var Relation(field, name) := rel.value;
      if |objs| == 0 then Ok(rec[field := List([])])
      else
        var found :- FindByDirectory(classes[name].store, List(objs));
        var members := seq(|found|, i requires 0 <= i < |found| => Node(found[i]));
        assert forall x: Value :: x in members <==> x.Node? && x.attrs in found by {
          forall x: Value | x.Node? && x.attrs in found ensures x in members {
            var i :| 0 <= i < |found| && found[i] == x.attrs;
            assert members[i] == x;
          }
        }
        Ok(rec[field := List(members)])
  }

  /** `update_children`: when the entry's `member` is an Array it goes to
      the member-users role and then to the member-groups role (both must be
      declared); when it is not an Array the record is left alone. */
  function UpdateChildren(rec: Bag, obj: Bag, roles: Roles, classes: Classes): (r: Result<Bag>)
    requires RolesResolvable(roles, classes)
    ensures !Lookup(obj, MemberKey).List? ==> r == Ok(rec)
    ensures Lookup(obj, MemberKey).List? && (roles.memberUsers.None? || roles.memberGroups.None?) ==> r.Err?
    ensures Lookup(obj, MemberKey) == List([]) && roles.memberUsers.Some? && roles.memberGroups.Some? ==>
              r == Ok(rec[roles.memberUsers.value.field := List([])][roles.memberGroups.value.field := List([])])
    ensures var v := Lookup(obj, MemberKey);
            v.List? && roles.memberUsers.Some? && roles.memberGroups.Some? ==>
              (r.Ok? <==> forall i :: 0 <= i < |v.items| ==> v.items[i].Node?)
    ensures r.Ok? && Lookup(obj, MemberKey).List? ==>
              var users := roles.memberUsers.value;
              var groups := roles.memberGroups.value;
              && groups.field in r.value
              && HoldsExactly(r.value[groups.field], classes[groups.className].store, Lookup(obj, MemberKey).items)
              && users.field in r.value
              && (users.field != groups.field ==>
                    HoldsExactly(r.value[users.field], classes[users.className].store, Lookup(obj, MemberKey).items))
    ensures r.Ok? ==> Untouched(rec, r.value, ChildFields(roles))
  {
    match Lookup(obj, MemberKey)
    case List(items) =>
      var afterUsers :- UpdateMembership(rec, items, roles.memberUsers, classes);
      UpdateMembership(afterUsers, items, roles.memberGroups, classes)
    case _ => Ok(rec)
  }

  /** `update_parents`: when the entry's `memberof` is an Array the
      member-of role (which must be declared) is overwritten from it. */
  function UpdateParents(rec: Bag, obj: Bag, roles: Roles, classes: Classes): (r: Result<Bag>)
    requires RolesResolvable(roles, classes)
    ensures !Lookup(obj, MemberOfKey).List? ==> r == Ok(rec)
    ensures Lookup(obj, MemberOfKey).List? && roles.memberOf.None? ==> r.Err?
    ensures Lookup(obj, MemberOfKey) == List([]) && roles.memberOf.Some? ==>
              r == Ok(rec[roles.memberOf.value.field := List([])])
    ensures var v := Lookup(obj, MemberOfKey);
            v.List? && roles.memberOf.Some? ==>
              (r.Ok? <==> forall i :: 0 <= i < |v.items| ==> v.items[i].Node?)
    ensures r.Ok? && Lookup(obj, MemberOfKey).List? ==>
              var parents := roles.memberOf.value;
              && parents.field in r.value
              && HoldsExactly(r.value[parents.field], classes[parents.className].store, Lookup(obj, MemberOfKey).items)
    ensures r.Ok? ==> Untouched(rec, r.value, ParentFields(roles))
  {
    match Lookup(obj, MemberOfKey)
    case List(items) => UpdateMembership(rec, items, roles.memberOf, classes)
    case _ => Ok(rec)
  }

  /** The parents pass of entry `obj` writes the local field `f`. */
  predicate ParentsWrite(obj: Bag, roles: Roles, f: string) {
    Lookup(obj, MemberOfKey).List? && roles.memberOf.Some? && roles.memberOf.value.field == f
  }

  /** After `update_memberships` from `obj`, the field of child role `rel`
      holds exactly the records of the `member` entries, unless the parents
      pass wrote the same field afterwards. */
  ghost predicate ChildHolds(out: Bag, obj: Bag, rel: Relation, roles: Roles, classes: Classes)
    requires rel.className in classes && Lookup(obj, MemberKey).List?
  {
    || ParentsWrite(obj, roles, rel.field)
    || (rel.field in out && HoldsExactly(out[rel.field], classes[rel.className].store, Lookup(obj, MemberKey).items))
  }

  /** The relationship fields of `out` are as `update_memberships` from `obj`
      leaves them: a `memberof` Array is held exactly in the member-of field,
      and a `member` Array in the member-users and member-groups fields (the
      groups one winning when both roles name one field). */
  ghost predicate MembershipsHold(out: Bag, obj: Bag, roles: Roles, classes: Classes)
    requires RolesResolvable(roles, classes)
  {
    && (Lookup(obj, MemberOfKey).List? ==>
          && roles.memberOf.Some?
          && roles.memberOf.value.field in out
          && HoldsExactly(out[roles.memberOf.value.field], classes[roles.memberOf.value.className].store,
                          Lookup(obj, MemberOfKey).items))
    && (Lookup(obj, MemberKey).List? ==>
          && roles.memberUsers.Some? && roles.memberGroups.Some?
          && ChildHolds(out, obj, roles.memberGroups.value, roles, classes)
          && (roles.memberUsers.value.field != roles.memberGroups.value.field ==>
                ChildHolds(out, obj, roles.memberUsers.value, roles, classes)))
  }

  /** The fields `update_memberships` from entry `obj` may write: the child
      roles' fields when `member` is an Array, the member-of field when
      `memberof` is one. */
  function WrittenFields(obj: Bag, roles: Roles): set<string> {
    (if Lookup(obj, MemberKey).List? then ChildFields(roles) else {})
    + (if Lookup(obj, MemberOfKey).List? then ParentFields(roles) else {})
  }

  /** `update_memberships`: children first, then parents; the relationship
      fields of the lists the entry carries end up holding those lists, and
      nothing else changes. */
  function UpdateMemberships(rec: Bag, obj: Bag, roles: Roles, classes: Classes): (r: Result<Bag>)
    requires RolesResolvable(roles, classes)
    ensures !Lookup(obj, MemberKey).List? && !Lookup(obj, MemberOfKey).List? ==> r == Ok(rec)
    ensures r.Ok? ==> Untouched(rec, r.value, RoleFields(roles))
    ensures r.Ok? ==> Untouched(rec, r.value, WrittenFields(obj, roles))
    ensures r.Ok? ==> MembershipsHold(r.value, obj, roles, classes)
    ensures r.Ok? <==> UpdateChildren(rec, obj, roles, classes).Ok? &&
                       UpdateParents(UpdateChildren(rec, obj, roles, classes).value, obj, roles, classes).Ok?
  {
    var children :- UpdateChildren(rec, obj, roles, classes);
    var parents := UpdateParents(children, obj, roles, classes);
    if parents.Ok? then
      ChildrenSurviveParents(children, parents.value, obj, roles, classes);
      parents
    else parents
  }

  /** The parents pass leaves the children pass's fields holding their lists,
      except the one field both passes write. */
  lemma ChildrenSurviveParents(children: Bag, out: Bag, obj: Bag, roles: Roles, classes: Classes)
    requires RolesResolvable(roles, classes)
    requires Lookup(obj, MemberKey).List? ==>
               && roles.memberUsers.Some? && roles.memberGroups.Some?
               && roles.memberGroups.value.field in children
               && HoldsExactly(children[roles.memberGroups.value.field],
                               classes[roles.memberGroups.value.className].store, Lookup(obj, MemberKey).items)
               && (roles.memberUsers.value.field != roles.memberGroups.value.field ==>
                     roles.memberUsers.value.field in children &&
                     HoldsExactly(children[roles.memberUsers.value.field],
                                  classes[roles.memberUsers.value.className].store, Lookup(obj, MemberKey).items))
    requires UpdateParents(children, obj, roles, classes) == Ok(out)
    ensures Lookup(obj, MemberKey).List? ==>
              && ChildHolds(out, obj, roles.memberGroups.value, roles, classes)
              && (roles.memberUsers.value.field != roles.memberGroups.value.field ==>
                    ChildHolds(out, obj, roles.memberUsers.value, roles, classes))
  {
    if Lookup(obj, MemberKey).List? {
      var items := Lookup(obj, MemberKey).items;
      forall rel | rel == roles.memberGroups.value ||
                   (rel == roles.memberUsers.value && rel.field != roles.memberGroups.value.field)
        ensures ChildHolds(out, obj, rel, roles, classes)
      {
        if !ParentsWrite(obj, roles, rel.field) {
          assert rel.field !in ParentFields(roles) || !Lookup(obj, MemberOfKey).List?;
          assert out[rel.field] == children[rel.field];
        }
      }
    }
  }

  /** `activedirectory_sync!`: `update_from_activedirectory!`, then the
      membership update on the entry the `ad_obj` reader returns, which
      searches again by the record's identifier when nothing was memoised and
      raises on `nil[:member]` when that search also finds nothing. */
  function ActiveDirectorySync(inst: Instance, params: Hash<Value>, m: AttrMap, roles: Roles,
                               classes: Classes, dir: Directory): (r: Result<Instance>)
    requires RolesResolvable(roles, classes)
    ensures var u := UpdateFrom(inst, params, m, dir);
            u.Err? ==> r == Err(u.error)
    ensures var u := UpdateFrom(inst, params, m, dir);
            u.Ok? && CurrentObject(u.value, m, dir).Nil? ==> r == Err(NilReceiver("[]"))
    ensures var u := UpdateFrom(inst, params, m, dir);
            u.Ok? && CurrentObject(u.value, m, dir).Node? ==>
              (r.Ok? <==> UpdateMemberships(u.value.fields, CurrentObject(u.value, m, dir).attrs, roles, classes).Ok?)
    ensures r.Ok? ==> var u := UpdateFrom(inst, params, m, dir);
              && u.Ok?
              && r.value.memo.Node?
              && r.value.memo == CurrentObject(u.value, m, dir)
              && Untouched(u.value.fields, r.value.fields, RoleFields(roles))
              && Untouched(u.value.fields, r.value.fields, WrittenFields(r.value.memo.attrs, roles))
              && MembershipsHold(r.value.fields, r.value.memo.attrs, roles, classes)
    ensures r.Ok? ==> UpdateMemberships(UpdateFrom(inst, params, m, dir).value.fields, r.value.memo.attrs,
                                        roles, classes) == Ok(r.value.fields)
    ensures var obj := ResolveObject(inst, params, m, dir);
            r.Ok? && obj.Node? ==>
              && r.value.memo == obj
              && forall i :: 0 <= i < |m| && m[i].0 !in RoleFields(roles) ==>
                   m[i].0 in r.value.fields && r.value.fields[m[i].0] == Lookup(obj.attrs, m[i].1)
    ensures r.Ok? ==> forall k :: k in inst.fields && !HasKey(m, k) && k !in RoleFields(roles) ==>
              k in r.value.fields && r.value.fields[k] == inst.fields[k]
    ensures ResolveObject(inst, params, m, dir) == Nil &&
            |dir(FindMatching([(LocalFieldToAd(m, GuidKey), Lookup(inst.fields, GuidKey))]))| == 0 ==>
              r == Err(NilReceiver("[]"))
  {
    var updated :- UpdateFrom(inst, params, m, dir);
    var obj := CurrentObject(updated, m, dir);
    match obj
    case Node(attrs) =>
      var fields :- UpdateMemberships(updated.fields, attrs, roles, classes);
      Ok(Instance(fields, obj))
    case Nil => Err(NilReceiver("[]"))
    case _ => Err(Index(obj, MemberKey).error)
  }
}

=== FILE: ordered_hash.dfy ===
/**
 * Ruby's `Hash`: an insertion-ordered table with pairwise distinct keys.
 * Assigning to an existing key replaces its value in place; assigning to a
 * new key appends it. Every translation in the model is a left fold of such
 * assignments, so collision behaviour ("the later entry wins") is exact.
 */
module OrderedHash {
  import opened Common

  /** No key occurs twice in the association list. */
  predicate UniqueKeys<V>(ps: seq<(string, V)>) {
    forall i, j :: 0 <= i < j < |ps| ==> ps[i].0 != ps[j].0
  }

  /** No value occurs twice: the table is injective. */
  predicate UniqueValues(ps: seq<(string, string)>) {
    forall i, j :: 0 <= i < j < |ps| ==> ps[i].1 != ps[j].1
  }

  /** A Ruby `Hash` value. */
  type Hash<V> = h: seq<(string, V)> | UniqueKeys(h) witness []

  predicate HasKey<V>(ps: seq<(string, V)>, k: string) {
    exists i :: 0 <= i < |ps| && ps[i].0 == k
  }

  predicate HasValue(ps: seq<(string, string)>, v: string) {
    exists i :: 0 <= i < |ps| && ps[i].1 == v
  }

  /** Entry `i` is the last one that carries its key. */
  predicate IsLast<V>(ps: seq<(string, V)>, i: int)
    requires 0 <= i < |ps|
  {
    forall j :: i < j < |ps| ==> ps[j].0 != ps[i].0
  }

  /** `h[k]`, with `None` for a missing key (Ruby's `has_key?` guard). */
  function Get<V>(ps: seq<(string, V)>, k: string): (r: Option<V>)
    ensures r.None? <==> !HasKey(ps, k)
    ensures r.Some? ==> exists i :: 0 <= i < |ps| && ps[i] == (k, r.value)
    ensures UniqueKeys(ps) ==>
              forall i :: 0 <= i < |ps| && ps[i].0 == k ==> r == Some(ps[i].1)
  {
    if |ps| == 0 then None
    else if ps[0].0 == k then Some(ps[0].1)
    else Get(ps[1..], k)
  }

  lemma HasKeySnoc<V>(t: seq<(string, V)>, p: (string, V), k: string)
    ensures HasKey(t + [p], k) <==> HasKey(t, k) || p.0 == k
  {
    var s := t + [p];
    if HasKey(t, k) {
      var i :| 0 <= i < |t| && t[i].0 == k;
      assert s[i].0 == k;
    }
    assert s[|t|] == p;
  }

  /** Position of key `k` in a hash that holds it. */
  function IndexOf<V>(h: Hash<V>, k: string): (i: nat)
    requires HasKey(h, k)
    ensures i < |h| && h[i].0 == k
  {
    var i :| 0 <= i < |h| && h[i].0 == k; i
  }

  /** `h[k] = v`: replaces the value of an existing key in place, or appends. */
  function Put<V>(h: Hash<V>, k: string, v: V): (r: Hash<V>)
    ensures Get(r, k) == Some(v)
    ensures forall k' :: k' != k ==> Get(r, k') == Get(h, k')
    ensures forall k' :: HasKey(r, k') <==> HasKey(h, k') || k' == k
    ensures !HasKey(h, k) ==> r == h + [(k, v)]
    ensures HasKey(h, k) ==> |r| == |h|
    ensures HasKey(h, k) ==> forall i :: 0 <= i < |h| ==> r[i].0 == h[i].0
  {
    if HasKey(h, k) then
      var r := h[IndexOf(h, k) := (k, v)];
      assert forall k' :: HasKey(r, k') <==> HasKey(h, k') by {
        forall k' ensures HasKey(r, k') <==> HasKey(h, k') {
          if HasKey(h, k') {
            var j :| 0 <= j < |h| && h[j].0 == k';
            assert r[j].0 == k';
          }
        }
      }
      r
    else
      var r := h + [(k, v)];
      assert forall k' :: HasKey(r, k') <==> HasKey(h, k') || k' == k by {
        forall k' { HasKeySnoc(h, (k, v), k'); }
      }
      r
  }

  /** Assigns the pairs one after another into an empty hash, as Ruby's
      `each { |k, v| out[k] = v }` does. */
  function PutAll<V>(ps: seq<(string, V)>): (r: Hash<V>)
    ensures forall k :: HasKey(r, k) <==> HasKey(ps, k)
    ensures |r| == 0 <==> |ps| == 0
  {
    if |ps| == 0 then []
    else
      var n := |ps| - 1;
      assert ps == ps[..n] + [ps[n]];
      assert forall k :: HasKey(ps, k) <==> HasKey(ps[..n], k) || ps[n].0 == k by {
        forall k { HasKeySnoc(ps[..n], ps[n], k); }
      }
      Put(PutAll(ps[..n]), ps[n].0, ps[n].1)
  }

  /** The later of two assignments to the same key wins. */
  lemma {:induction false} PutAllLastWins<V>(ps: seq<(string, V)>, i: int)
    requires 0 <= i < |ps| && IsLast(ps, i)
    ensures Get(PutAll(ps), ps[i].0) == Some(ps[i].1)
    decreases |ps|
  {
    var n := |ps| - 1;
    var front := PutAll(ps[..n]);
    assert PutAll(ps) == Put(front, ps[n].0, ps[n].1);
    if i < n {
      assert ps[n].0 != ps[i].0;
      assert IsLast(ps[..n], i);
      PutAllLastWins(ps[..n], i);
      assert ps[..n][i] == ps[i];
    }
  }

  /** Without collisions, assigning the pairs in order rebuilds them unchanged. */
  lemma {:induction false} PutAllDistinct<V>(ps: seq<(string, V)>)
    requires UniqueKeys(ps)
    ensures PutAll(ps) == ps
    decreases |ps|
  {
    if |ps| > 0 {
      var n := |ps| - 1;
      PutAllDistinct(ps[..n]);
      assert !HasKey(ps[..n], ps[n].0);
      assert ps[..n] + [ps[n]] == ps;
    }
  }

  /** The value/key pairs of a table. */
  function Swap(ps: seq<(string, string)>): (r: seq<(string, string)>)
    ensures |r| == |ps|
    ensures forall i :: 0 <= i < |ps| ==> r[i] == (ps[i].1, ps[i].0)
  {
    seq(|ps|, i requires 0 <= i < |ps| => (ps[i].1, ps[i].0))
  }

  lemma SwapKeys(h: seq<(string, string)>, v: string)
    ensures HasKey(Swap(h), v) <==> HasValue(h, v)
  {
    var s := Swap(h);
    if HasValue(h, v) {
      var i :| 0 <= i < |h| && h[i].1 == v;
      assert s[i].0 == v;
    }
  }

  /** Ruby's `Hash#invert`: values become keys; among equal values the last key wins. */
  function Invert(h: Hash<string>): (r: Hash<string>)
    ensures forall v :: HasKey(r, v) <==> HasValue(h, v)
    ensures forall i :: 0 <= i < |h| && (forall j :: i < j < |h| ==> h[j].1 != h[i].1) ==>
              Get(r, h[i].1) == Some(h[i].0)
    ensures UniqueValues(h) ==> r == Swap(h)
  {
    var s := Swap(h);
    assert forall v :: HasKey(s, v) <==> HasValue(h, v) by {
      forall v ensures HasKey(s, v) <==> HasValue(h, v) {
        SwapKeys(h, v);
      }
    }
    assert forall i :: 0 <= i < |h| && (forall j :: i < j < |h| ==> h[j].1 != h[i].1) ==>
             Get(PutAll(s), h[i].1) == Some(h[i].0) by {
      forall i | 0 <= i < |h| && (forall j :: i < j < |h| ==> h[j].1 != h[i].1)
        ensures Get(PutAll(s), h[i].1) == Some(h[i].0)
      {
        assert IsLast(s, i);
        PutAllLastWins(s, i);
      }
    }
    assert UniqueValues(h) ==> PutAll(s) == s by {
      if UniqueValues(h) {
        assert UniqueKeys(s);
        PutAllDistinct(s);
      }
    }
    PutAll(s)
  }
}

=== FILE: registration.dfy ===
/**
 * Declaring a model's relationship roles (`set_devise_ad_options` and the
 * three `devise_ad_*` declarations). Constant lookup and Rails inflection are
 * replaced by a registry of known classes and a given `classify` function.
 */
module Registration {
  import opened Common
  import opened Values

  /** What the program knows about one model class: whether it includes
      `Devise::AdObject`, and its table of local records. */
  datatype ModelClass = ModelClass(includesAdObject: bool, store: seq<Bag>)

  /** The classes `Kernel.const_get` can find, by name. */
  type Classes = map<string, ModelClass>

  /** The options hash of one role: the local field to set and the target class. */
  datatype Relation = Relation(field: string, className: string)

  /** A model's three roles; `None` while the role has not been declared. */
  datatype Roles = Roles(memberOf: Option<Relation>, memberUsers: Option<Relation>, memberGroups: Option<Relation>)

  /** Which role a declaration sets. */
  datatype Role = MemberOf | MemberUsers | MemberGroups

  const Undeclared: Roles := Roles(None, None, None)

  /** The local fields `update_children` writes: the declared member-users
      and member-groups fields. */
  function ChildFields(roles: Roles): set<string> {
    (if roles.memberUsers.Some? then {roles.memberUsers.value.field} else {})
    + (if roles.memberGroups.Some? then {roles.memberGroups.value.field} else {})
  }

  /** The local field `update_parents` writes: the declared member-of field. */
  function ParentFields(roles: Roles): set<string> {
    if roles.memberOf.Some? then {roles.memberOf.value.field} else {}
  }

  /** The local fields the declared roles write. */
  function RoleFields(roles: Roles): set<string> {
    ChildFields(roles) + ParentFields(roles)
  }

  /** A declared role points at a known class that includes `Devise::AdObject`. */
  predicate Resolvable(rel: Option<Relation>, classes: Classes) {
    rel.Some? ==> rel.value.className in classes && classes[rel.value.className].includesAdObject
  }

  predicate RolesResolvable(roles: Roles, classes: Classes) {
    && Resolvable(roles.memberOf, classes)
    && Resolvable(roles.memberUsers, classes)
    && Resolvable(roles.memberGroups, classes)
  }

  /** The class name a declaration resolves: `:class_name` when given,
      otherwise the field name, put through `classify`. */
  function TargetName(field: string, className: Option<string>, classify: string -> string): string {
    classify(if className.Some? then className.value else field)
  }

  /** `set_devise_ad_options`: succeeds exactly when the resolved class exists
      and includes `Devise::AdObject`, and then records the field and class. */
  function SetDeviseAdOptions(field: string, className: Option<string>, classify: string -> string,
                              classes: Classes): (r: Result<Relation>)
    ensures r.Ok? <==> Resolvable(Some(Relation(field, TargetName(field, className, classify))), classes)
    ensures r.Ok? ==> r.value.field == field
    ensures className.None? && r.Ok? ==> r.value.className == classify(field)
    ensures className.Some? && r.Ok? ==> r.value.className == classify(className.value)
    ensures TargetName(field, className, classify) !in classes ==>
              r == Err(UnknownClass(TargetName(field, className, classify)))
    ensures r.Ok? ==> Resolvable(Some(r.value), classes)
  {
    var name := TargetName(field, className, classify);
    if name !in classes then Err(UnknownClass(name))
    else if !classes[name].includesAdObject then Err(NotAdObject(name))
    else Ok(Relation(field, name))
  }

  /** The role a declaration sets. */
  function RoleOf(roles: Roles, role: Role): Option<Relation> {
    match role
    case MemberOf => roles.memberOf
    case MemberUsers => roles.memberUsers
    case MemberGroups => roles.memberGroups
  }

  /** `devise_ad_memberof`, `devise_ad_member_users`, `devise_ad_member_groups`:
      sets the one role, leaves the other two, and keeps every declared role
      resolvable; a failing declaration raises and changes nothing. */
  function Declare(roles: Roles, role: Role, field: string, className: Option<string>,
                   classify: string -> string, classes: Classes): (r: Result<Roles>)
    ensures r.Ok? <==> SetDeviseAdOptions(field, className, classify, classes).Ok?
    ensures r.Ok? ==> RoleOf(r.value, role) == Some(SetDeviseAdOptions(field, className, classify, classes).value)
    ensures r.Ok? ==> forall other :: other != role ==> RoleOf(r.value, other) == RoleOf(roles, other)
    ensures r.Ok? && RolesResolvable(roles, classes) ==> RolesResolvable(r.value, classes)
  {
    var rel :- SetDeviseAdOptions(field, className, classify, classes);
    match role
    case MemberOf => Ok(roles.(memberOf := Some(rel)))
    case MemberUsers => Ok(roles.(memberUsers := Some(rel)))
    case MemberGroups => Ok(roles.(memberGroups := Some(rel)))
  }

  /** A class starts with no role declared (the accessors of line 80 read
      `nil`); its first successful declaration leaves exactly that role
      declared, resolvable, and writing only the declared field. */
  lemma FirstDeclaration(role: Role, field: string, className: Option<string>,
                         classify: string -> string, classes: Classes)
    ensures var r := Declare(Undeclared, role, field, className, classify, classes);
            r.Ok? ==>
              && RolesResolvable(r.value, classes)
              && RoleFields(r.value) == {field}
              && forall other :: other != role ==> RoleOf(r.value, other).None?
  {
    var r := Declare(Undeclared, role, field, className, classify, classes);
    if r.Ok? {
      assert RoleOf(r.value, role).value.field == field;
      assert forall other :: other != role ==> RoleOf(r.value, other) == RoleOf(Undeclared, other);
    }
  }
}

=== FILE: search.dfy ===
/**
 * The two stores the engine consults. The directory search
 * (`activedirectory_class.find`) and the local store query
 * (`scoped.where(:objectguid => guids)`) are oracles: the directory is a
 * function of the query, and the local store is a sequence of rows filtered
 * by identifier.
 */
module Search {
  import opened Common
  import opened OrderedHash
  import opened Values
  import opened AttrMapping

  /** What `find_in_activedirectory` asks the directory for. */
  datatype Query =
    /** `find(:all)`: every entry. */
    | FindAll
    /** `find(:all, ad_params)`: entries matching the directory-named filter. */
    | FindMatching(filter: Hash<Value>)

  /** The directory gateway, as a pure function of the query. */
  type Directory = Query -> seq<Bag>

  /** The query `find_in_activedirectory` sends for some local search parameters. */
  function PlanSearch(m: AttrMap, params: Hash<Value>): (q: Query)
    ensures q.FindAll? <==> |params| == 0
    ensures |params| > 0 ==> q == FindMatching(LocalAttrsToAd(m, params))
  {
    var adParams := LocalAttrsToAd(m, params);
    if |adParams| == 0 then FindAll else FindMatching(adParams)
  }

  /** `find_all_in_activedirectory`: an unfiltered search of the directory. */
  function FindAllIn(dir: Directory): (objs: seq<Bag>)
    ensures objs == dir(FindAll)
  {
    dir(FindAll)
  }

  /** `find_in_activedirectory`: an empty search lists the whole directory;
      any other search goes out under the directory's attribute names. */
  function FindIn(m: AttrMap, dir: Directory, params: Hash<Value>): (objs: seq<Bag>)
    ensures |params| == 0 ==> objs == FindAllIn(dir)
    ensures |params| > 0 ==> objs == dir(FindMatching(LocalAttrsToAd(m, params)))
  {
    dir(PlanSearch(m, params))
  }

  /** The local records with one of the given identifiers, in store order
      (`where(:objectguid => guids)`; SQL promises no order, so no contract
      below mentions one). */
  function Where(store: seq<Bag>, guids: seq<Value>): (found: seq<Bag>)
    ensures |found| <= |store|
    ensures forall t :: t in found <==> t in store && Lookup(t, GuidKey) in guids
  {
    if |store| == 0 then []
    else
      var n := |store| - 1;
      var front := Where(store[..n], guids);
      assert store == store[..n] + [store[n]];
      if Lookup(store[n], GuidKey) in guids then front + [store[n]] else front
  }

  /** Some entry of `objs` is an attribute bag whose identifier is `g`. */
  predicate Mentions(objs: seq<Value>, g: Value) {
    exists i :: 0 <= i < |objs| && objs[i].Node? && Lookup(objs[i].attrs, GuidKey) == g
  }

  /** `objs.collect { |obj| obj[:objectguid] }`; the first entry that is not an
      attribute bag raises. */
  function GuidsOf(objs: seq<Value>): (r: Result<seq<Value>>)
    ensures r.Ok? <==> forall i :: 0 <= i < |objs| ==> objs[i].Node?
    ensures r.Ok? ==> |r.value| == |objs|
    ensures r.Ok? ==> forall i :: 0 <= i < |objs| ==> r.value[i] == Lookup(objs[i].attrs, GuidKey)
  {
    if |objs| == 0 then Ok([])
    else
      var head :- Index(objs[0], GuidKey);
      var tail :- GuidsOf(objs[1..]);
      assert forall i :: 1 <= i < |objs| ==> objs[i] == objs[1..][i - 1];
      Ok([head] + tail)
  }

  /** `find_by_activedirectory`: a single object is treated as a one-element
      list; the result holds exactly the local records whose identifier one
      of the objects carries, and no record for an identifier unknown locally. */
  function FindByDirectory(store: seq<Bag>, objs: Value): (r: Result<seq<Bag>>)
    ensures var items := if objs.List? then objs.items else [objs];
            && (r.Ok? <==> forall i :: 0 <= i < |items| ==> items[i].Node?)
            && (r.Ok? ==> forall t :: t in r.value <==>
                            t in store && Mentions(items, Lookup(t, GuidKey)))
  {
    var items := if objs.List? then objs.items else [objs];
    var guids :- GuidsOf(items);
    assert forall g :: g in guids <==> Mentions(items, g) by {
      forall g ensures g in guids <==> Mentions(items, g) {
        if g in guids {
          var i :| 0 <= i < |guids| && guids[i] == g;
          assert items[i].Node? && Lookup(items[i].attrs, GuidKey) == g;
        }
        if Mentions(items, g) {
          var i :| 0 <= i < |items| && items[i].Node? && Lookup(items[i].attrs, GuidKey) == g;
          assert guids[i] == g;
        }
      }
    }
    Ok(Where(store, guids))
  }

  /** Entry `i` is the last row of `rows` with its identifier. */
  predicate LastWithGuid(rows: seq<Bag>, i: int)
    requires 0 <= i < |rows|
  {
    forall j :: i < j < |rows| ==> Lookup(rows[j], GuidKey) != Lookup(rows[i], GuidKey)
  }

  /** The `db_objs_by_guid` index: each row stored under its identifier, a
      later row with the same identifier replacing an earlier one. */
  function GuidIndex(rows: seq<Bag>): (index: map<Value, Bag>)
    ensures forall g :: g in index <==> exists i :: 0 <= i < |rows| && Lookup(rows[i], GuidKey) == g
    ensures forall g :: g in index ==> index[g] in rows && Lookup(index[g], GuidKey) == g
  {
    if |rows| == 0 then map[]
    else
      var n := |rows| - 1;
      var front := GuidIndex(rows[..n]);
      var last := Lookup(rows[n], GuidKey);
      var index := front[last := rows[n]];
      assert forall g :: g in index <==>
               exists i :: 0 <= i < |rows| && Lookup(rows[i], GuidKey) == g by {
        forall g ensures g in index <==>
                         exists i :: 0 <= i < |rows| && Lookup(rows[i], GuidKey) == g
        {
          if g in front {
            var i :| 0 <= i < n && Lookup(rows[..n][i], GuidKey) == g;
            assert rows[i] == rows[..n][i];
          }
          if exists i :: 0 <= i < |rows| && Lookup(rows[i], GuidKey) == g {
            var i :| 0 <= i < |rows| && Lookup(rows[i], GuidKey) == g;
            if i < n {
              assert Lookup(rows[..n][i], GuidKey) == g;
            }
          }
        }
      }
      index
  }

  /** Of several local rows with one identifier, the index keeps the last. */
  lemma {:induction false} GuidIndexLastWins(rows: seq<Bag>, i: int)
    requires 0 <= i < |rows| && LastWithGuid(rows, i)
    ensures Lookup(rows[i], GuidKey) in GuidIndex(rows)
    ensures GuidIndex(rows)[Lookup(rows[i], GuidKey)] == rows[i]
    decreases |rows|
  {
    var n := |rows| - 1;
    if i < n {
      assert LastWithGuid(rows[..n], i);
      GuidIndexLastWins(rows[..n], i);
      assert rows[..n][i] == rows[i];
    }
  }
}

=== FILE: sync.dfy ===
/**
 * Copying directory attributes onto a local record
 * (`copy_from_activedirectory`) and choosing the directory entry to copy
 * from (`update_from_activedirectory!`, the `ad_obj` reader).
 */
module Sync {
  import opened Common
  import opened OrderedHash
  import opened Values
  import opened AttrMapping
  import opened Search

  /** A local record together with its memoised directory entry `@ad_obj`
      (`Nil` while nothing has been memoised). */
  datatype Instance = Instance(fields: Bag, memo: Value)

  /** `Model.new`: a record with no attributes set and nothing memoised. */
  const Fresh: Instance := Instance(map[], Nil)

  /** `copy_from_activedirectory`: every mapped local field receives the
      entry's value of its directory attribute (`nil` when the entry lacks
      it); every other field is left as it was. */
  function Copy(rec: Bag, m: AttrMap, obj: Bag): (r: Bag)
    ensures forall i :: 0 <= i < |m| ==> m[i].0 in r && r[m[i].0] == Lookup(obj, m[i].1)
    ensures forall k :: k in r <==> k in rec || HasKey(m, k)
    ensures forall k :: k in rec && !HasKey(m, k) ==> r[k] == rec[k]
  {
    if |m| == 0 then rec
    else
      var n := |m| - 1;
      var front := Copy(rec, m[..n], obj);
      assert forall k :: HasKey(m, k) <==> HasKey(m[..n], k) || m[n].0 == k by {
        assert m == m[..n] + [m[n]];
        forall k ensures HasKey(m, k) <==> HasKey(m[..n], k) || m[n].0 == k {
          HasKeySnoc(m[..n], m[n], k);
        }
      }
      assert forall i :: 0 <= i < n ==> m[i] == m[..n][i] && m[i].0 != m[n].0;
      front[m[n].0 := Lookup(obj, m[n].1)]
  }

  /** Copying the same entry a second time changes nothing. */
  lemma CopyIdempotent(rec: Bag, m: AttrMap, obj: Bag)
    ensures Copy(Copy(rec, m, obj), m, obj) == Copy(rec, m, obj)
  {
    var once := Copy(rec, m, obj);
    var twice := Copy(once, m, obj);
    forall k | k in once
      ensures twice[k] == once[k]
    {
      if HasKey(m, k) {
        var i := IndexOf(m, k);
        assert twice[m[i].0] == Lookup(obj, m[i].1) == once[m[i].0];
      }
    }
  }

  /** The value of the `:object` parameter, `nil` when absent. */
  function ObjectParam(params: Hash<Value>): (v: Value)
    ensures HasKey(params, "object") ==> Get(params, "object") == Some(v)
    ensures !HasKey(params, "object") ==> v == Nil
  {
    match Get(params, "object")
    case Some(v) => v
    case None => Nil
  }

  /** The parameters after `params[:objectguid] = self.objectguid if params.empty?`. */
  function DefaultParams(rec: Bag, params: Hash<Value>): (p: Hash<Value>)
    ensures |params| > 0 ==> p == params
    ensures |params| == 0 ==> p == [(GuidKey, Lookup(rec, GuidKey))]
  {
    if |params| == 0 then [(GuidKey, Lookup(rec, GuidKey))] else params
  }

  /** A one-entry search under the local name `field`, sent under the field's
      directory name. */
  lemma SingleParamSearch(m: AttrMap, field: string, v: Value)
    ensures LocalAttrsToAd(m, [(field, v)]) == [(LocalFieldToAd(m, field), v)]
  {
    var ps := [(field, v)];
    assert Renamed(m, ps) == [(LocalFieldToAd(m, field), v)];
    PutAllDistinct(Renamed(m, ps));
  }

  /** `@ad_obj ||= params[:object] || klass.find_in_activedirectory(params).first`:
      an already memoised entry wins, then a truthy `:object`, then the first
      search hit, where no parameters mean a search by the record's own
      identifier under its directory name. */
  function ResolveObject(inst: Instance, params: Hash<Value>, m: AttrMap, dir: Directory): (r: Value)
    ensures Truthy(inst.memo) ==> r == inst.memo
    ensures !Truthy(inst.memo) && Truthy(ObjectParam(params)) ==> r == ObjectParam(params)
    ensures !Truthy(inst.memo) && |params| == 0 ==>
              r == First(dir(FindMatching([(LocalFieldToAd(m, GuidKey), Lookup(inst.fields, GuidKey))])))
    ensures !Truthy(inst.memo) && |params| > 0 && !Truthy(ObjectParam(params)) ==>
              r == First(dir(FindMatching(LocalAttrsToAd(m, params))))
    ensures r == Nil || r.Node? || r == inst.memo || r == ObjectParam(params)
  {
    var p := DefaultParams(inst.fields, params);
    SingleParamSearch(m, GuidKey, Lookup(inst.fields, GuidKey));
    assert |params| == 0 ==> !HasKey(p, "object");
    if Truthy(inst.memo) then inst.memo
    else if Truthy(ObjectParam(p)) then ObjectParam(p)
    else First(FindIn(m, dir, p))
  }

  /** `copy_from_activedirectory @ad_obj unless @ad_obj.nil?`: a `nil` entry
      leaves the record alone; anything but an attribute bag raises on the
      first mapped attribute. */
  function CopyFrom(rec: Bag, m: AttrMap, obj: Value): (r: Result<Bag>)
    ensures obj.Nil? ==> r == Ok(rec)
    ensures obj.Node? ==> r == Ok(Copy(rec, m, obj.attrs))
    ensures r.Err? <==> !obj.Nil? && !obj.Node? && |m| > 0
    ensures r.Ok? ==> forall k :: k in rec && !HasKey(m, k) ==> k in r.value && r.value[k] == rec[k]
    ensures r.Ok? && !obj.Node? ==> r.value == rec
  {
    match obj
    case Nil => Ok(rec)
    case Node(attrs) => Ok(Copy(rec, m, attrs))
    case _ =>
      if |m| == 0 then Ok(rec)
      else Err(Index(obj, m[0].1).error)
  }

  /** `update_from_activedirectory!`: resolves the entry, memoises it and
      copies the mapped attributes from it, wherever the entry came from;
      fields outside the attribute map (relationship fields among them,
      unless one is also a map key) keep their values. */
  function UpdateFrom(inst: Instance, params: Hash<Value>, m: AttrMap, dir: Directory): (r: Result<Instance>)
    ensures inst.memo.Node? ==> r == Ok(Instance(Copy(inst.fields, m, inst.memo.attrs), inst.memo))
    ensures !Truthy(inst.memo) && ObjectParam(params).Node? ==>
              r == Ok(Instance(Copy(inst.fields, m, ObjectParam(params).attrs), ObjectParam(params)))
    ensures var obj := ResolveObject(inst, params, m, dir);
            obj.Node? ==> r == Ok(Instance(Copy(inst.fields, m, obj.attrs), obj))
    ensures ResolveObject(inst, params, m, dir) == Nil ==> r == Ok(Instance(inst.fields, Nil))
    ensures r.Ok? && !ResolveObject(inst, params, m, dir).Node? ==> r.value.fields == inst.fields
    ensures var obj := ResolveObject(inst, params, m, dir);
            !obj.Nil? && !obj.Node? ==> (r.Err? <==> |m| > 0)
    ensures r.Ok? ==> r.value.memo == ResolveObject(inst, params, m, dir)
    ensures r.Ok? ==> forall k :: k in inst.fields && !HasKey(m, k) ==>
              k in r.value.fields && r.value.fields[k] == inst.fields[k]
  {
    var obj := ResolveObject(inst, params, m, dir);
    var fields :- CopyFrom(inst.fields, m, obj);
    Ok(Instance(fields, obj))
  }

  /** The `ad_obj` reader: the memoised entry, or else the first entry found
      by the record's own identifier. */
  function CurrentObject(inst: Instance, m: AttrMap, dir: Directory): (r: Value)
    ensures Truthy(inst.memo) ==> r == inst.memo
    ensures !Truthy(inst.memo) ==>
              r == First(dir(FindMatching([(LocalFieldToAd(m, GuidKey), Lookup(inst.fields, GuidKey))])))
  {
    SingleParamSearch(m, GuidKey, Lookup(inst.fields, GuidKey));
    if Truthy(inst.memo) then inst.memo
    else First(FindIn(m, dir, [(GuidKey, Lookup(inst.fields, GuidKey))]))
  }
}

=== FILE: values.dfy ===
/**
 * The Ruby values that flow through the synchronisation code: directory
 * attribute bags, ActiveRecord attributes, and the arrays held in the
 * directory's `member` and `memberof` attributes.
 */
module Values {
  import opened Common

  /** A Ruby value, as far as the synchronisation code can tell values apart. */
  datatype Value =
    | Nil
    | Bool(b: bool)
    | Str(s: string)
    /** A Ruby `Array`. */
    | List(items: seq<Value>)
    /** An object answering `obj[:attr]`: a directory entry or a local record. */
    | Node(attrs: map<string, Value>)

  /** A bag of named attributes: an ActiveDirectory entry or an ActiveRecord row. */
  type Bag = map<string, Value>

  /** The attribute read by `obj[:attr]`; missing attributes read as `nil`. */
  function Lookup(b: Bag, name: string): (r: Value)
    ensures name !in b ==> r == Nil
    ensures name in b ==> r == b[name]
  {
    if name in b then b[name] else Nil
  }

  /** Ruby truthiness: everything except `nil` and `false`. */
  predicate Truthy(v: Value) {
    !v.Nil? && v != Bool(false)
  }

  /** `v[:name]` on an arbitrary value. Only attribute bags answer it; `nil`
      raises `NoMethodError`, strings and arrays raise `TypeError`. */
  function Index(v: Value, name: string): (r: Result<Value>)
    ensures r.Ok? <==> v.Node?
    ensures v.Node? ==> r.value == Lookup(v.attrs, name)
    ensures v.Nil? ==> r == Err(NilReceiver("[]"))
  {
    match v
    case Node(attrs) => Ok(Lookup(attrs, name))
    case Nil => Err(NilReceiver("[]"))
    case _ => Err(NotIndexable("[]"))
  }

  /** The external identifier attribute, on both sides of the synchronisation. */
  const GuidKey: string := "objectguid"

  /** `objs.first`: the first entry, or `nil` when the search found nothing. */
  function First(objs: seq<Bag>): (r: Value)
    ensures |objs| == 0 <==> r == Nil
    ensures |objs| > 0 ==> r == Node(objs[0])
  {
    if |objs| == 0 then Nil else Node(objs[0])
  }
}
